=== FILE: README.md ===
# GAPI-PROXY core, modelled in Dafny

GAPI-PROXY is a small Node.js reverse proxy in front of Google's
generative-language API. This project models the three pieces of pure logic
at its centre and proves what they do:

- **Path normalisation** (`processPath`, utils.js): every forwarded path is
  placed under `/v1beta` (module `Paths`).
- **API-key parsing and key rotation** (`getApiKeys` in utils.js and in
  index.js, and the key-override and body rules of the index.js handler).
  The `key` query parameter may hold several keys separated by `;`. A `POST`
  to a model endpoint gets one of them, chosen at random, as its `key`. The
  request body is forwarded for every method except `GET` and `HEAD`
  (modules `ApiKeys`, `Routing`).
- **SSE re-framing and de-duplication** (the `'data'` callback of
  `handleSSEResponse`, utils.js): each upstream chunk is split into lines.
  Each `data: ` line is re-emitted as a `data: …\n\n` event, unless the
  de-duplication cut leaves nothing to write. A `[DONE]` payload is
  forwarded as the sentinel event. `lastChunk`, the accumulated content of
  the last chunk without `[DONE]`, is cut off the end of the current
  accumulation. The callback is a pure step
  `(lastChunk, chunk) -> (writes, lastChunk')`, and the response is that step
  folded over the chunk sequence (module `Sse`).

`JSON.parse` and `JSON.stringify` are opaque oracles: a `Json` value carries
`parses(s)`, which says whether `JSON.parse(s)` succeeds, and `canon(s)`, the
text of `JSON.stringify(JSON.parse(s))`. The proofs hold for every such pair
of functions. The random key index `Math.floor(Math.random() * n)` is an
argument `pick`. JavaScript strings are `seq<char>`. Module `Strings` gives
`startsWith`, `endsWith`, `includes`, `split`, `join` and `filter(Boolean)`
their JavaScript meaning and proves that `Split` and `Join` are inverses.

## Behaviour worth knowing

- Each chunk is split on `\n` on its own. No partial line is carried
  across chunks, so a `data:` line cut by a chunk boundary is not
  reassembled.
- The `'end'` handler only closes the response. Nothing is written after
  the last chunk's own events (`Sse.NoSentinelSynthesised`, `Sse.RunWrites`).
- A `[DONE]` payload is forwarded as the sentinel event once in every
  chunk that carries one (`Sse.RepeatedSentinelForwarded`). The callback
  returns at the first `[DONE]`, so the rest of that chunk, a second
  `[DONE]` included, is dropped (`Sse.SentinelEndsChunk`).
- `lastChunk` is the final accumulation of the last chunk without `[DONE]`;
  a chunk with `[DONE]` leaves it as it was. The code cuts `lastChunk` off
  the end of the current accumulation. A re-sent tail shorter than
  `lastChunk` is written again (`Sse.ShorterTailNotSuppressed`). A one-event
  chunk whose payload equals `lastChunk` writes nothing and resets
  `lastChunk` to empty (`Sse.ExactResendSuppressed`). That is an exact
  re-send of the previous chunk only when nothing was cut from it. After
  such a suppression a third copy of the same chunk is written again
  (`Sse.ThirdCopyWritten`).
- A parsable payload is always written re-serialised from itself. The cut
  only decides whether it is written: nothing is written when the cut
  empties the accumulation. An unparsable payload is written as the
  trimmed accumulation (`Sse.OverlapCutOnlyWhenUnparsable`).
- Payloads are compared as raw strings. No text field is taken out of the
  JSON.

## Model

| member | source | states |
|---|---|---|
| `Paths.ProcessPath` | utils.js:4-10 | the result is `/v1beta` or starts with `/v1beta/`; it is the input minus at most one leading `/`, behind either `/` or `/v1beta/`; it is at most 8 characters longer than the input; it equals the input exactly when the input is already `/v1beta` or `/v1beta/…`; a slash-less `v1beta` or `v1beta/…` only gets its `/` back |
| `Paths.LeadingSlashIrrelevant` | utils.js:5 | only the path after one optional leading `/` matters: a slash-less path and the same path with `/` in front are normalised alike |
| `Paths.ContractDeterminesResult` | utils.js:4-10 | any string meeting `ProcessPath`'s contract is `processPath`'s result, so the contract pins the output for every input |
| `Paths.ProcessPathIdempotent` | utils.js:5-9 | normalising a normalised path changes nothing |
| `Paths.NoSegmentBoundary` | utils.js:6 | `v1betaX`, with `X` not `/` and with or without a leading `/`, is not recognised as prefixed: `/v1beta/` is put in front of it |
| `Strings.Split` | utils.js:21 | `split` on one character gives at least one piece, and no piece holds the separator |
| `Strings.JoinSplit` | utils.js:21 | joining the pieces of a split back with the separator gives the input |
| `Strings.SplitJoin` | utils.js:21 | splitting a join of separator-free pieces gives the pieces back |
| `Strings.ConcatSplit` | utils.js:73 | the pieces of a split, laid end to end, are the input with the separator deleted |
| `Strings.NonEmpty` | utils.js:73 | `filter(Boolean)` drops every empty string and keeps every non-empty one as many times as it occurs in the input list; the concatenation is unchanged |
| `Strings.NonEmptyAppend` | utils.js:73 | `filter(Boolean)` works element by element, so the kept strings stay in input order: filtering `a + b` is filtering `a` followed by filtering `b` |
| `ApiKeys.SplitKeys` | utils.js:70-74 | a missing or empty `key` gives `[]`; otherwise every key is non-empty and `;`-free, and the keys concatenated equal the parameter with every `;` removed, in order |
| `ApiKeys.Runs` | index.js:56 | the matches of the global regex `[^;]+` are non-empty and `;`-free, and together they spell the parameter without its `;` |
| `ApiKeys.MatchKeys` | index.js:50-57 | a missing or empty `key` gives `[]`; a non-empty one gives a non-empty list of non-empty keys |
| `ApiKeys.RunsEmpty` | index.js:56 | the regex finds no match exactly when the parameter consists of `;` alone |
| `ApiKeys.RunsAreNonEmptyPieces` | index.js:56 | the regex matches are exactly the non-empty pieces of `split(';')` |
| `ApiKeys.MatchKeysAgreesWithSplitKeys` | index.js:56 | when the parameter has a character other than `;`, both parsers return the same list: the maximal `;`-free runs in order |
| `ApiKeys.MatchKeysAllSemicolons` | index.js:56 | a non-empty all-`;` parameter gives index.js the one key `[keyParam]`, which contains `;`, while utils.js finds no key |
| `ApiKeys.ParsersAgreeIff` | index.js:50-57 | the two parsers disagree if and only if the parameter is non-empty and all `;` |
| `Routing.KeyOverride` | index.js:18-25 | the `key` parameter is replaced if and only if the method is `POST`, the path contains `/v1beta/models/` and the key list is non-empty, that is, a non-empty `key` was given; the new key is the list entry at the drawn index, so it is one of the caller's keys and never empty |
| `Routing.OverrideKeyIsRun` | index.js:18-24 | when the parameter holds a character other than `;`, a `POST` to a model endpoint always gets its key replaced, by one of the `;`-free runs |
| `Routing.TargetsModel` | index.js:18 | a `POST` whose pathname contains `/v1beta/models/`; its meaning for the key is stated by `Routing.KeyOverride` |
| `Routing.ForwardedBody` | index.js:30 | no body is forwarded for `GET` and `HEAD`; every other method forwards the serialised request body |
| `Sse.Trim` | utils.js:36-38 | when `lastChunk` is non-empty and the accumulation ends with it, the trimmed accumulation followed by `lastChunk` is the untrimmed one; otherwise nothing is cut |
| `Sse.LineStep` | utils.js:25-49 | a line not starting with `data: ` changes nothing; a `[DONE]` payload writes exactly `data: [DONE]\n\n` and stops; any other data line writes at most one `data: X\n\n` event, none when the trimmed accumulation is empty; the event carries the payload's re-serialisation when it parses, and the trimmed accumulation when it does not |
| `Sse.ProcessLines` | utils.js:24-52 | the `for` loop over the lines of one chunk, stopping after a `[DONE]` line; its contract is stated by the `Sse.ProcessLines…` lemmas below |
| `Sse.ProcessLinesDone` | utils.js:29-31 | the line loop ends early exactly when some line's payload is `[DONE]`, and then its last write is the sentinel event |
| `Sse.ProcessLinesWrites` | utils.js:24-52 | the loop writes at most one well-formed event per data line; without data lines it writes nothing and keeps the accumulation |
| `Sse.ProcessLinesIgnoresNonData` | utils.js:25 | deleting every line that does not start with `data: ` leaves the outcome unchanged |
| `Sse.ProcessLinesAppend` | utils.js:24-52 | lines are handled in order: the loop over `a + b` is the loop over `a` and then over `b` from where `a` left off, unless `a` hit `[DONE]` |
| `Sse.ProcessLinesStopsAtDone` | utils.js:29-31 | the lines after the first `[DONE]` line are never looked at |
| `Sse.ProcessLinesWithoutLast` | utils.js:27 | with an empty `lastChunk` and no `[DONE]` line, the accumulation is the concatenation of the payloads |
| `Sse.ChunkStep` | utils.js:20-54 | the `'data'` callback as a pure step from `lastChunk` and the chunk to the writes and the new `lastChunk`; its contract is stated by `Sse.ChunkStepSpec` and proved equal to the imperative loop by `Sse.HandleChunk` |
| `Sse.ChunkStepSpec` | utils.js:20-54 | one callback writes at most one well-formed event per data line; with `[DONE]` its output ends with the sentinel event and `lastChunk` is kept; otherwise `lastChunk` becomes the final accumulation, which is the payload concatenation when `lastChunk` was empty; a chunk without data lines resets `lastChunk` to empty |
| `Sse.HandleChunk` | utils.js:20-54 | the callback's loop, with its early `return` on `[DONE]`, computes exactly the pure step |
| `Sse.Run` | utils.js:18-54 | the callback folded over the chunks in arrival order, from a given `lastChunk`; its contract is stated by `Sse.RunWrites` and `Sse.RunAppend` |
| `Sse.Stream` | utils.js:18-58 | what the client receives: the fold's writes from an empty `lastChunk`, with nothing added at the end; stated by `Sse.RunWrites` and the scenario lemmas below |
| `Sse.RunWrites` | utils.js:20-58 | every write of a response is a well-formed event; an upstream that sends no data line gets nothing written, not even a terminal event |
| `Sse.RunAppend` | utils.js:18-54 | chunks are processed in arrival order; only `lastChunk` is carried from one batch to the next |
| `Sse.SingleEventChunk` | utils.js:21-53 | a chunk holding one non-sentinel event writes nothing if the trimmed payload is empty; otherwise it writes one event, the re-serialised payload if it parses and the trimmed payload if not; the trimmed payload becomes `lastChunk` |
| `Sse.EventLines` | utils.js:21 | a chunk holding one event splits into its data line and two empty lines |
| `Sse.ExactResendSuppressed` | utils.js:36-40 | a one-event chunk whose payload equals `lastChunk` writes nothing and resets `lastChunk` to empty; this is an exact re-send of the previous chunk only when nothing was cut from it |
| `Sse.OverlapCutOnlyWhenUnparsable` | utils.js:36-47 | for a payload `y + lastChunk`, the overlap is cut from the event only when the payload does not parse; `y` becomes `lastChunk` either way |
| `Sse.ShorterTailNotSuppressed` | utils.js:36 | a re-sent tail strictly shorter than `lastChunk` is written again |
| `Sse.GrowingEventsThenDone` | utils.js:20-54 | two parsable events, the second not ending with the first, then `[DONE]`, give two re-serialised events and the sentinel event |
| `Sse.DoneChunk` | utils.js:29-31 | a chunk with only the sentinel event writes the sentinel and keeps `lastChunk` |
| `Sse.RepeatedSentinelForwarded` | utils.js:29-31 | two sentinel chunks give two sentinel events |
| `Sse.SentinelEndsChunk` | utils.js:29-31 | a chunk that starts with the sentinel event writes only the sentinel event, whatever follows it in the same chunk, and keeps `lastChunk` |
| `Sse.ThirdCopyWritten` | utils.js:36-53 | three copies of the same one-event chunk give two events: the second copy is suppressed and resets `lastChunk` to empty, so the third is written again |
| `Sse.NoSentinelSynthesised` | utils.js:56-58 | a response whose only chunk is one parsable event gives that one event and no terminal event |

## Left out

- The Express server, routing, CORS middleware, header copying, `fetch` and the non-streaming reply path (index.js:1-16, 27-29, 31-48, 59-61): HTTP plumbing and I/O.
- The `Readable` wiring, the `'end'`, `'error'` and `'close'` handlers and `stream.destroy` (utils.js:12-17, 56-67): event-driven I/O. The `'end'` handler's only effect is to write nothing more, and `Sse.Stream` reflects that.
- The throw when the upstream response has no body (utils.js:13-15): an I/O precondition of the stream wiring.
- The internals of `JSON.parse` and `JSON.stringify`: the `Json` oracle stands in for them.
- A `res.write` that throws inside the `try` block: the model treats writes as infallible.
- The decoding of each `Buffer` chunk (`chunk.toString()`): chunks are modelled as already-decoded strings. A multi-byte UTF-8 character split across two chunks is not modelled. Whether a chunk is a `Buffer` or a plain `Uint8Array` (whose `toString()` does not decode the text) depends on the `fetch` implementation, which is not part of this model.
- JavaScript strings are UTF-16 code units, and the model's strings are Unicode characters. The modelled operations only compare, cut at ASCII separators, or remove a known suffix, so they agree on both views.
- `Math.random` and `Math.floor` (index.js:22): floating point. The drawn index is the argument `pick`. `Routing.KeyOverride` requires `pick` to be in range whenever a key is drawn, which `Math.floor(Math.random() * n)` guarantees.
- `URL` and `searchParams` parsing and the host rewrite (index.js:14-15, 23): a foreign library. The `key` parameter is `Option<string>` (`None` when absent), and the pathname is a plain string.
- A `key` query value that Express parses into an array (utils.js:71): the model takes a string.
- Console logging.

=== FILE: api_keys.dfy ===
/**
 The two parsers of the `key` query parameter, which may carry several
 API keys separated by `;`:
 - `SplitKeys`, utils.js `getApiKeys`: split on `;`, drop empty pieces;
 - `MatchKeys`, index.js `getApiKeys`: all matches of the regular
   expression `[^;]+`, or the whole parameter when there is none.
 A missing parameter is `None`; an empty one is `Some("")`.
 */
module ApiKeys {
  import opened Optional
  import opened Strings

  /** A key as the parsers hand it out: non-empty and free of `;`. */
  predicate WellFormedKey(k: string) {
    k != "" && ';' !in k
  }

  /** Length of the run of non-`;` characters at the front of `s`. */
  function RunLength(s: string): (n: nat)
    ensures n <= |s|
    ensures forall i :: 0 <= i < n ==> s[i] != ';'
    ensures n < |s| ==> s[n] == ';'
    decreases |s|
  {
    if |s| == 0 || s[0] == ';' then 0 else 1 + RunLength(s[1..])
  }

  /** The successive matches of the global regular expression `[^;]+`:
      scanning left to right, a `;` is skipped and any other character
      starts a match that extends as far as possible. */
  function Runs(s: string): (runs: seq<string>)
    ensures forall i :: 0 <= i < |runs| ==> WellFormedKey(runs[i])
    ensures Concat(runs) == Remove(s, ';')
    decreases |s|
  {
    if |s| == 0 then []
    else if s[0] == ';' then Runs(s[1..])
    else
      var n := RunLength(s);
      var rest := Runs(s[n..]);
      RemoveRun(s, n);
      [s[..n]] + rest
  }

  /** Deleting `;` from a string that begins with a `;`-free run of
      length `n` keeps that run and deletes `;` from the remainder. */
  lemma {:induction false} RemoveRun(s: string, n: nat)
    requires n <= |s|
    requires forall i :: 0 <= i < n ==> s[i] != ';'
    ensures Remove(s, ';') == s[..n] + Remove(s[n..], ';')
    decreases n
  {
    if n > 0 {
      RemoveRun(s[1..], n - 1);
      assert s[1..][..n - 1] == s[1..n];
      assert s[1..][n - 1..] == s[n..];
      assert s[..n] == [s[0]] + s[1..n];
    }
  }

  /** utils.js `getApiKeys`: `(key || '').split(';').filter(Boolean)`.
      Nothing for a missing or empty parameter; otherwise well-formed keys
      whose concatenation is the parameter with every `;` deleted. */
  function SplitKeys(keyParam: Option<string>): (keys: seq<string>)
    ensures keyParam == None || keyParam == Some("") ==> keys == []
    ensures forall i :: 0 <= i < |keys| ==> WellFormedKey(keys[i])
    ensures keyParam.Some? ==> Concat(keys) == Remove(keyParam.value, ';')
  {
    if keyParam == None || keyParam == Some("") then []
    else
      var parts := Split(keyParam.value, ';');
      ConcatSplit(keyParam.value, ';');
      NonEmpty(parts)
  }

  /** index.js `getApiKeys`: `key.match(/([^;]+)/g) || [key]` after an
      early `[]` for a missing or empty parameter. */
  function MatchKeys(keyParam: Option<string>): (keys: seq<string>)
    ensures keyParam == None || keyParam == Some("") ==> keys == []
    ensures keyParam.Some? && keyParam.value != "" ==> |keys| > 0 && keys[0] != ""
    ensures forall i :: 0 <= i < |keys| ==> keys[i] != ""
  {
    if keyParam == None || keyParam == Some("") then []
    else
      var runs := Runs(keyParam.value);
      if runs == [] then [keyParam.value] else runs
  }

  /** Only `;` in `s`. */
  predicate AllSemicolons(s: string) {
    forall i :: 0 <= i < |s| ==> s[i] == ';'
  }

  /** The regular expression finds no match exactly when the string
      consists of `;` alone. */
  lemma {:induction false} RunsEmpty(s: string)
    ensures Runs(s) == [] <==> AllSemicolons(s)
    decreases |s|
  {
    if |s| > 0 && s[0] == ';' {
      RunsEmpty(s[1..]);
      assert forall i :: 1 <= i < |s| ==> s[i] == s[1..][i - 1];
    }
  }

  /** The regex scan and split-then-filter produce the same list. */
  lemma {:induction false} RunsAreNonEmptyPieces(s: string)
    ensures Runs(s) == NonEmpty(Split(s, ';'))
    decreases |s|
  {
    if |s| == 0 {
    } else if s[0] == ';' {
      RunsAreNonEmptyPieces(s[1..]);
      assert s == [';'] + s[1..];
      assert Split(s, ';') == [""] + Split(s[1..], ';');
    } else {
      var n := RunLength(s);
      if n == |s| {
        assert s[..n] == s;
        SplitWithoutSeparator(s, ';');
        assert s[n..] == "";
      } else {
        var tail := s[n + 1..];
        assert s == s[..n] + [';'] + tail;
        SplitAfterPiece(s[..n], ';', tail);
        RunsAreNonEmptyPieces(tail);
        assert s[n..][1..] == tail;
        assert [s[..n]] + Split(tail, ';') == Split(s, ';');
      }
    }
  }

  /** When the parameter holds at least one character other than `;`,
      the two parsers agree: both return the maximal `;`-free runs. */
  lemma MatchKeysAgreesWithSplitKeys(keyParam: string)
    requires !AllSemicolons(keyParam)
    ensures MatchKeys(Some(keyParam)) == SplitKeys(Some(keyParam)) == Runs(keyParam)
  {
    RunsEmpty(keyParam);
    RunsAreNonEmptyPieces(keyParam);
  }

  /** A non-empty parameter made only of `;` is where they part: index.js
      forwards the parameter itself as the single key, utils.js finds no
      key at all. */
  lemma MatchKeysAllSemicolons(keyParam: string)
    requires keyParam != "" && AllSemicolons(keyParam)
    ensures MatchKeys(Some(keyParam)) == [keyParam]
    ensures ';' in MatchKeys(Some(keyParam))[0]
    ensures SplitKeys(Some(keyParam)) == []
  {
    RunsEmpty(keyParam);
    RunsAreNonEmptyPieces(keyParam);
    assert keyParam[0] == ';';
  }

  /** Both directions: the parsers disagree exactly on non-empty
      all-`;` parameters. */
  lemma ParsersAgreeIff(keyParam: Option<string>)
    ensures MatchKeys(keyParam) == SplitKeys(keyParam)
            <==> !(keyParam.Some? && keyParam.value != "" && AllSemicolons(keyParam.value))
  {
    if keyParam.Some? && keyParam.value != "" {
      if AllSemicolons(keyParam.value) {
        MatchKeysAllSemicolons(keyParam.value);
      } else {
        MatchKeysAgreesWithSplitKeys(keyParam.value);
      }
    }
  }
}

=== FILE: optional.dfy ===
/**
 A value that may be absent: a query parameter that was not given, or a
 request body that is not forwarded.
 */
module Optional {
  datatype Option<T> = None | Some(value: T)
}

=== FILE: paths.dfy ===
/**
 Request-path normalisation (`processPath` in utils.js): every path the
 proxy forwards is placed under the upstream API's `/v1beta` prefix.
 */
module Paths {
  import opened Strings

  const Prefix := "/v1beta"

  /** The path without its leading `/`, if it has one. */
  function Relative(p: string): string {
    if StartsWith(p, "/") then p[1..] else p
  }

  /** Already of the form `/v1beta` or `/v1beta/…`. */
  predicate Normal(p: string) {
    p == Prefix || StartsWith(p, Prefix + "/")
  }

  /** `processPath`: drop one leading `/`; a path that is `v1beta` or starts
      with the segment `v1beta/` gets its `/` back, any other path is put
      below `/v1beta/`. The result always starts with the prefix at a
      segment boundary, keeps the relative path as its tail, and equals the
      input exactly when the input was already normal. */
  function ProcessPath(p: string): (r: string)
    ensures Normal(r)
    ensures StartsWith(r, Prefix)
    ensures EndsWith(r, Relative(p))
    ensures |r| <= |p| + |Prefix + "/"|
    ensures r == p <==> Normal(p)
    ensures r == "/" + Relative(p) || r == Prefix + "/" + Relative(p)
    ensures Relative(p) == "v1beta" || StartsWith(Relative(p), "v1beta/") ==> r == "/" + Relative(p)
  {
    var path := Relative(p);
    NormalIsPrefixed(p);
    if StartsWith(path, "v1beta/") || path == "v1beta" then
      var r := "/" + path;
      assert r[1..] == path;
      assert StartsWith(path, "v1beta/") ==> r[..|Prefix + "/"|] == "/" + path[..7];
      r
    else
      var r := Prefix + "/" + path;
      assert r[..|Prefix + "/"|] == Prefix + "/";
      assert |r| > |p|;
      r
  }

  /** A normal path starts with `/`, and what follows is `v1beta` or starts
      with `v1beta/`. */
  lemma NormalIsPrefixed(p: string)
    ensures StartsWith(p, "/") ==> p == "/" + Relative(p)
    ensures !StartsWith(p, "/") ==> p == Relative(p)
    ensures Normal(p) ==> StartsWith(p, "/")
    ensures Normal(p) ==> Relative(p) == "v1beta" || StartsWith(Relative(p), "v1beta/")
  {
    if StartsWith(p, Prefix + "/") {
      assert p[..1] == "/";
      assert Relative(p)[..7] == p[1..8];
    }
  }

  /** Only the path after an optional leading `/` matters: adding the
      slash in front of a slash-less path changes nothing. */
  lemma LeadingSlashIrrelevant(p: string)
    ensures ProcessPath(p) == ProcessPath("/" + Relative(p))
  {
    var q := "/" + Relative(p);
    assert StartsWith(q, "/") && q[1..] == Relative(p);
  }

  /** The contract of `ProcessPath` leaves no freedom: a string that is
      normal, is the relative path behind either `/` or `/v1beta/`, and is
      `/` + the relative path when that already starts with the segment
      `v1beta`, is the result. */
  lemma ContractDeterminesResult(p: string, r: string)
    requires Normal(r)
    requires r == "/" + Relative(p) || r == Prefix + "/" + Relative(p)
    requires Relative(p) == "v1beta" || StartsWith(Relative(p), "v1beta/") ==> r == "/" + Relative(p)
    ensures r == ProcessPath(p)
  {
    var rel := Relative(p);
    if r == "/" + rel {
      assert r[1..] == rel;
      if r != Prefix {
        assert r[1..|Prefix + "/"|] == rel[..7];
      }
    }
  }

  /** Normalising twice is normalising once. */
  lemma ProcessPathIdempotent(p: string)
    ensures ProcessPath(ProcessPath(p)) == ProcessPath(p)
  {
  }

  /** `v1beta` must be a whole segment: `v1betaX` (with or without the
      leading `/`) is not recognised and gets the full prefix in front. */
  lemma NoSegmentBoundary(p: string, x: char)
    requires x != '/'
    requires StartsWith(p, "v1beta" + [x]) || StartsWith(p, "/v1beta" + [x])
    ensures ProcessPath(p) == "/v1beta/" + Relative(p)
  {
    if StartsWith(p, "v1beta" + [x]) {
      assert p[0] == 'v' && p[6] == x;
      assert Relative(p) == p;
    } else {
      assert p[0] == '/' && p[7] == x;
      assert Relative(p)[6] == x;
    }
  }
}

=== FILE: routing.dfy ===
/**
 The two request-rewriting rules of the index.js handler: when a randomly
 chosen key from the `key` parameter replaces that parameter, and whether
 the request body is forwarded upstream. The random draw
 `Math.floor(Math.random() * keys.length)` arrives as the index `pick`.
 */
module Routing {
  import opened Optional
  import opened Strings
  import opened ApiKeys

  const ModelsSegment := "/v1beta/models/"

  /** What the handler does to the outgoing `key` parameter. */
  datatype KeyDecision = Keep | Replace(key: string)

  /** A `POST` aimed at a model endpoint. */
  predicate TargetsModel(verb: string, pathname: string) {
    verb == "POST" && Contains(pathname, ModelsSegment)
  }

  /** index.js lines 18-24. The parameter is overwritten exactly when the
      request is a `POST` to a model endpoint and the key list is
      non-empty, which is exactly when a non-empty `key` was given; the new
      value is the list's entry at `pick`, so it is one of the caller's
      keys, and it is never empty. */
  function KeyOverride(verb: string, pathname: string, keyParam: Option<string>, pick: nat): (d: KeyDecision)
    requires TargetsModel(verb, pathname) && MatchKeys(keyParam) != [] ==> pick < |MatchKeys(keyParam)|
    ensures d.Replace? <==> TargetsModel(verb, pathname) && MatchKeys(keyParam) != []
    ensures d.Replace? <==> TargetsModel(verb, pathname) && keyParam.Some? && keyParam.value != ""
    ensures d.Replace? ==> d.key in MatchKeys(keyParam) && d.key == MatchKeys(keyParam)[pick]
    ensures d.Replace? ==> d.key != ""
  {
    if TargetsModel(verb, pathname) then
      var keys := MatchKeys(keyParam);
      if |keys| > 0 then Replace(keys[pick]) else Keep
    else Keep
  }

  /** When the parameter holds a character other than `;`, the key put on
      the upstream request is one of the maximal `;`-free runs. */
  lemma OverrideKeyIsRun(verb: string, pathname: string, keyParam: string, pick: nat)
    requires !AllSemicolons(keyParam)
    requires TargetsModel(verb, pathname) ==> pick < |Runs(keyParam)|
    ensures TargetsModel(verb, pathname) ==> pick < |MatchKeys(Some(keyParam))|
    ensures KeyOverride(verb, pathname, Some(keyParam), pick).Replace?
            <==> TargetsModel(verb, pathname)
    ensures TargetsModel(verb, pathname) ==>
            var d := KeyOverride(verb, pathname, Some(keyParam), pick);
            d.key in Runs(keyParam) && WellFormedKey(d.key)
  {
    MatchKeysAgreesWithSplitKeys(keyParam);
  }

  /** index.js line 30: the serialised request body travels upstream for
      every method except `GET` and `HEAD`, which carry none. */
  function ForwardedBody<B>(verb: string, body: B, stringify: B -> string): (r: Option<string>)
    ensures r == None <==> verb == "GET" || verb == "HEAD"
    ensures r.Some? ==> r.value == stringify(body)
  {
    if verb != "GET" && verb != "HEAD" then Some(stringify(body)) else None
  }
}

=== FILE: sse.dfy ===
/**
 The re-framing and de-duplication step of utils.js `handleSSEResponse`:
 what the `'data'` callback does with one upstream chunk, as a pure step
 `(lastChunk, chunk) -> (writes, lastChunk')`, and the whole response as
 that step folded over the chunk sequence.

 The step splits the chunk on `\n` (a line cut by a chunk boundary is not
 reassembled), ignores every line that does not start with `data: `, and
 accumulates the payloads of the data lines of one chunk in `current`.
 Before each write the tail `lastChunk` (the final `current` of the last
 chunk without `[DONE]`) is cut off `current` if `current` ends with it. A payload that
 parses as JSON is written re-serialised from the payload itself, any
 other from the trimmed `current`; a `[DONE]` payload writes the sentinel
 event and abandons the rest of the chunk without updating `lastChunk`.
 */
module Sse {
  import opened Strings

  /** `JSON.parse` and `JSON.stringify` as opaque oracles: whether a string
      parses, and the re-serialisation `JSON.stringify(JSON.parse(s))`. */
  datatype Json = Json(parses: string -> bool, canon: string -> string)

  const DataPrefix := "data: "
  const Sentinel := "[DONE]"

  /** The bytes written for one event carrying `x`. */
  function Event(x: string): string {
    DataPrefix + x + "\n\n"
  }

  const DoneEvent := Event(Sentinel)

  /** Shaped like a written event: `data: `, a payload, a blank line. */
  predicate IsEvent(w: string) {
    |w| >= |DataPrefix| + 2 && StartsWith(w, DataPrefix) && EndsWith(w, "\n\n")
  }

  predicate IsDataLine(line: string) {
    StartsWith(line, DataPrefix)
  }

  function Payload(line: string): string
    requires IsDataLine(line)
  {
    line[|DataPrefix|..]
  }

  predicate IsDoneLine(line: string) {
    IsDataLine(line) && Payload(line) == Sentinel
  }

  /** Some line of the chunk carries the sentinel. */
  predicate HasDone(lines: seq<string>) {
    exists i :: 0 <= i < |lines| && IsDoneLine(lines[i])
  }

  /** The data lines of a chunk, in order. */
  function DataLines(lines: seq<string>): (r: seq<string>)
    ensures forall i :: 0 <= i < |r| ==> IsDataLine(r[i])
    decreases |lines|
  {
    if |lines| == 0 then []
    else if IsDataLine(lines[0]) then [lines[0]] + DataLines(lines[1..])
    else DataLines(lines[1..])
  }

  /** How many data lines a chunk has. */
  function DataLineCount(lines: seq<string>): nat {
    |DataLines(lines)|
  }

  /** The payloads of the data lines of a chunk, in order. */
  function Payloads(lines: seq<string>): seq<string> {
    var d := DataLines(lines);
    seq(|d|, i requires 0 <= i < |d| => Payload(d[i]))
  }

  /** Unfolding `Payloads` at the first line. */
  lemma PayloadsCons(lines: seq<string>)
    requires |lines| > 0
    ensures IsDataLine(lines[0]) ==> Payloads(lines) == [Payload(lines[0])] + Payloads(lines[1..])
    ensures !IsDataLine(lines[0]) ==> Payloads(lines) == Payloads(lines[1..])
  {
    var d := DataLines(lines);
    var t := DataLines(lines[1..]);
    if IsDataLine(lines[0]) {
      assert d == [lines[0]] + t;
      assert forall i :: 0 < i < |d| ==> d[i] == t[i - 1];
    }
  }

  /** The duplicate cut of utils.js lines 36-38: when `last` is non-empty
      and `current` ends with it, exactly that tail is removed; otherwise
      `current` is kept whole. */
  function Trim(current: string, last: string): (t: string)
    ensures last != "" && EndsWith(current, last) ==> t + last == current
    ensures !(last != "" && EndsWith(current, last)) ==> t == current
    ensures |t| <= |current|
  {
    if EndsWith(current, last) && last != "" then
      assert current == current[..|current| - |last|] + last;
      current[..|current| - |last|]
    else current
  }

  /** State and output after some lines of one chunk: what was written,
      the accumulated `currentChunk`, and whether `[DONE]` ended the loop. */
  datatype LineOutcome = LineOutcome(writes: seq<string>, current: string, done: bool)

  /** One pass of the line loop (utils.js lines 25-49). A line that is not
      a data line changes nothing. A `[DONE]` payload writes exactly the
      sentinel event and stops. Any other data line writes at most one
      event, none when the trimmed accumulation is empty: a parsable
      payload its own re-serialisation, an unparsable one the trimmed
      accumulation. */
  function LineStep(json: Json, last: string, current: string, line: string): (o: LineOutcome)
    ensures |o.writes| <= 1
    ensures forall i :: 0 <= i < |o.writes| ==> IsEvent(o.writes[i])
    ensures !IsDataLine(line) ==> o == LineOutcome([], current, false)
    ensures o.done <==> IsDoneLine(line)
    ensures o.done ==> o.writes == [DoneEvent]
    ensures IsDataLine(line) && !o.done ==> o.current == Trim(current + Payload(line), last)
    ensures !o.done && o.current == "" ==> o.writes == []
    ensures IsDataLine(line) && !o.done && o.current != "" ==>
              o.writes == [Event(if json.parses(Payload(line)) then json.canon(Payload(line)) else o.current)]
  {
    if !IsDataLine(line) then LineOutcome([], current, false)
    else
      var data := Payload(line);
      var acc := current + data;
      if data == Sentinel then LineOutcome([DoneEvent], acc, true)
      else
        var t := Trim(acc, last);
        if t == "" then LineOutcome([], t, false)
        else if json.parses(data) then LineOutcome([Event(json.canon(data))], t, false)
        else LineOutcome([Event(t)], t, false)
  }

  /** Unfolding `HasDone` at the first line. */
  lemma HasDoneCons(lines: seq<string>)
    requires |lines| > 0
    ensures HasDone(lines) <==> IsDoneLine(lines[0]) || HasDone(lines[1..])
  {
    if HasDone(lines[1..]) {
      var i :| 0 <= i < |lines[1..]| && IsDoneLine(lines[1..][i]);
      assert IsDoneLine(lines[i + 1]);
    }
    if HasDone(lines) && !IsDoneLine(lines[0]) {
      var i :| 0 <= i < |lines| && IsDoneLine(lines[i]);
      assert i > 0 && lines[1..][i - 1] == lines[i];
    }
  }

  /** The line loop over one chunk, from accumulation `current`: each line
      in turn, stopping after a `[DONE]` line. */
  function ProcessLines(json: Json, last: string, lines: seq<string>, current: string): LineOutcome
    decreases |lines|
  {
    if |lines| == 0 then LineOutcome([], current, false)
    else
      var o := LineStep(json, last, current, lines[0]);
      if o.done then o
      else
        var rest := ProcessLines(json, last, lines[1..], o.current);
        LineOutcome(o.writes + rest.writes, rest.current, rest.done)
  }

  /** The loop ends in `[DONE]` exactly when some line carries the
      sentinel, and then its last write is the sentinel event. */
  lemma {:induction false} ProcessLinesDone(json: Json, last: string, lines: seq<string>, current: string)
    ensures var o := ProcessLines(json, last, lines, current);
            (o.done <==> HasDone(lines))
            && (o.done ==> |o.writes| > 0 && o.writes[|o.writes| - 1] == DoneEvent)
    decreases |lines|
  {
    if |lines| > 0 {
      HasDoneCons(lines);
      var o := LineStep(json, last, current, lines[0]);
      if !o.done {
        ProcessLinesDone(json, last, lines[1..], o.current);
      }
    }
  }

  /** The loop writes at most once per data line and only well-shaped
      events; a chunk without data lines leaves everything as it was. */
  lemma {:induction false} ProcessLinesWrites(json: Json, last: string, lines: seq<string>, current: string)
    ensures var o := ProcessLines(json, last, lines, current);
            && |o.writes| <= DataLineCount(lines)
            && (forall i :: 0 <= i < |o.writes| ==> IsEvent(o.writes[i]))
            && (DataLineCount(lines) == 0 ==> o == LineOutcome([], current, false))
    decreases |lines|
  {
    if |lines| > 0 {
      var o := LineStep(json, last, current, lines[0]);
      if !o.done {
        ProcessLinesWrites(json, last, lines[1..], o.current);
      }
    }
  }

  /** Concatenation of write lists is associative. */
  lemma AppendAssoc(x: seq<string>, y: seq<string>, z: seq<string>)
    ensures x + (y + z) == (x + y) + z
  {
  }

  /** Only data lines matter: dropping every other line changes nothing. */
  lemma {:induction false} ProcessLinesIgnoresNonData(json: Json, last: string, lines: seq<string>, current: string)
    ensures ProcessLines(json, last, lines, current) == ProcessLines(json, last, DataLines(lines), current)
    decreases |lines|
  {
    if |lines| > 0 {
      if IsDataLine(lines[0]) {
        var o := LineStep(json, last, current, lines[0]);
        var d := DataLines(lines);
        assert d[0] == lines[0] && d[1..] == DataLines(lines[1..]);
        if !o.done {
          ProcessLinesIgnoresNonData(json, last, lines[1..], o.current);
        }
      } else {
        ProcessLinesIgnoresNonData(json, last, lines[1..], current);
      }
    }
  }

  /** Lines are handled in order: the loop over `a + b` is the loop over
      `a` followed by the loop over `b` from where `a` left off, as long as
      `a` did not end in `[DONE]`. */
  lemma {:induction false} ProcessLinesAppend(json: Json, last: string, a: seq<string>, b: seq<string>, current: string)
    requires !HasDone(a)
    ensures var oa := ProcessLines(json, last, a, current);
            var ob := ProcessLines(json, last, b, oa.current);
            ProcessLines(json, last, a + b, current) == LineOutcome(oa.writes + ob.writes, ob.current, ob.done)
    decreases |a|
  {
    if |a| == 0 {
      assert a + b == b;
    } else {
      HasDoneCons(a);
      var o := LineStep(json, last, current, a[0]);
      assert !o.done;
      assert (a + b)[0] == a[0] && (a + b)[1..] == a[1..] + b;
      ProcessLinesAppend(json, last, a[1..], b, o.current);
      var ra := ProcessLines(json, last, a[1..], o.current);
      var ob := ProcessLines(json, last, b, ra.current);
      assert ProcessLines(json, last, a, current) == LineOutcome(o.writes + ra.writes, ra.current, ra.done);
      var rab := ProcessLines(json, last, a[1..] + b, o.current);
      assert rab == LineOutcome(ra.writes + ob.writes, ob.current, ob.done);
      assert ProcessLines(json, last, a + b, current) == LineOutcome(o.writes + rab.writes, rab.current, rab.done);
      AppendAssoc(o.writes, ra.writes, ob.writes);
    }
  }

  /** Nothing after a `[DONE]` line is looked at: the lines following the
      first sentinel can be anything. */
  lemma {:induction false} ProcessLinesStopsAtDone(json: Json, last: string, a: seq<string>, done: string, b: seq<string>, current: string)
    requires IsDoneLine(done)
    ensures ProcessLines(json, last, a + [done] + b, current) == ProcessLines(json, last, a + [done], current)
    decreases |a|
  {
    if |a| == 0 {
      assert (a + [done] + b)[0] == done && (a + [done])[0] == done;
    } else {
      var o := LineStep(json, last, current, a[0]);
      assert (a + [done] + b)[0] == a[0] && (a + [done] + b)[1..] == a[1..] + [done] + b;
      assert (a + [done])[0] == a[0] && (a + [done])[1..] == a[1..] + [done];
      if !o.done {
        ProcessLinesStopsAtDone(json, last, a[1..], done, b, o.current);
      }
    }
  }

  /** With no `lastChunk` to cut, the accumulation is the plain
      concatenation of the payloads. */
  lemma {:induction false} ProcessLinesWithoutLast(json: Json, lines: seq<string>, current: string)
    ensures !HasDone(lines) ==> ProcessLines(json, "", lines, current).current == current + Concat(Payloads(lines))
    decreases |lines|
  {
    if |lines| > 0 {
      HasDoneCons(lines);
      var o := LineStep(json, "", current, lines[0]);
      ProcessLinesWithoutLast(json, lines[1..], o.current);
      PayloadsCons(lines);
    }
  }

  /** What one `'data'` callback wrote, and the `lastChunk` it leaves. */
  datatype StepResult = StepResult(writes: seq<string>, last: string)

  /** `chunk.toString().split('\n')` */
  function Lines(chunk: string): seq<string> {
    Split(chunk, '\n')
  }

  /** The `'data'` callback (utils.js lines 20-54). The only state carried
      from chunk to chunk is `lastChunk`. */
  function ChunkStep(json: Json, last: string, chunk: string): StepResult {
    var o := ProcessLines(json, last, Lines(chunk), "");
    StepResult(o.writes, if o.done then last else o.current)
  }

  /** What one callback writes is at most one well-shaped event per data
      line. A chunk with a `[DONE]` line ends its output with the sentinel
      event and leaves `lastChunk` as it was; any other chunk makes
      `lastChunk` its final accumulation, which with an empty `lastChunk` is
      the concatenation of its payloads, and which a chunk without data
      lines resets to empty. */
  lemma ChunkStepSpec(json: Json, last: string, chunk: string)
    ensures forall i :: 0 <= i < |ChunkStep(json, last, chunk).writes| ==> IsEvent(ChunkStep(json, last, chunk).writes[i])
    ensures |ChunkStep(json, last, chunk).writes| <= DataLineCount(Lines(chunk))
    ensures HasDone(Lines(chunk)) ==>
              var r := ChunkStep(json, last, chunk);
              r.last == last && |r.writes| > 0 && r.writes[|r.writes| - 1] == DoneEvent
    ensures !HasDone(Lines(chunk)) ==> ChunkStep(json, last, chunk).last == ProcessLines(json, last, Lines(chunk), "").current
    ensures !HasDone(Lines(chunk)) && last == "" ==> ChunkStep(json, last, chunk).last == Concat(Payloads(Lines(chunk)))
    ensures DataLineCount(Lines(chunk)) == 0 ==> ChunkStep(json, last, chunk) == StepResult([], "")
  {
    var lines := Lines(chunk);
    var o := ProcessLines(json, last, lines, "");
    assert ChunkStep(json, last, chunk) == StepResult(o.writes, if o.done then last else o.current);
    ProcessLinesDone(json, last, lines, "");
    ProcessLinesWrites(json, last, lines, "");
    ProcessLinesWithoutLast(json, lines, "");
    assert "" + Concat(Payloads(lines)) == Concat(Payloads(lines));
  }

  /** The body of `HandleChunk`'s loop, kept apart so that each proof stays
      small: one line handled statement by statement, with the early
      `return` on `[DONE]`, agreeing with `LineStep`. */
  method HandleLine(json: Json, last: string, current: string, line: string)
    returns (written: seq<string>, newCurrent: string, done: bool)
    ensures LineOutcome(written, newCurrent, done) == LineStep(json, last, current, line)
  {
    written := [];
    newCurrent := current;
    done := false;
    if StartsWith(line, DataPrefix) {
      var data := line[|DataPrefix|..];
      newCurrent := newCurrent + data;
      if data == Sentinel {
        written := [DoneEvent];
        done := true;
        return;
      }
      if EndsWith(newCurrent, last) && last != "" {
        newCurrent := newCurrent[..|newCurrent| - |last|];
      }
      if newCurrent != "" {
        if json.parses(data) {
          written := [Event(json.canon(data))];
        } else {
          written := [Event(newCurrent)];
        }
      }
    }
  }

  /** The callback as the JavaScript writes it: a loop over the lines with
      an early `return` on `[DONE]`. It computes exactly `ChunkStep`. */
  method HandleChunk(json: Json, last: string, chunk: string) returns (writes: seq<string>, newLast: string)
    ensures StepResult(writes, newLast) == ChunkStep(json, last, chunk)
  {
    var lines := Split(chunk, '\n');
    var current := "";
    writes := [];
    var i := 0;
    while i < |lines|
      invariant 0 <= i <= |lines|
      invariant var rest := ProcessLines(json, last, lines[i..], current);
                ProcessLines(json, last, lines, "") == LineOutcome(writes + rest.writes, rest.current, rest.done)
    {
      assert lines[i..][0] == lines[i] && lines[i..][1..] == lines[i + 1..];
      var written, next, done := HandleLine(json, last, current, lines[i]);
      if done {
        writes := writes + written;
        newLast := last;
        return;
      }
      AppendAssoc(writes, written, ProcessLines(json, last, lines[i + 1..], next).writes);
      writes := writes + written;
      current := next;
      i := i + 1;
    }
    newLast := current;
  }

  /** The whole response: the callback folded over the upstream chunks,
      starting from `lastChunk`. */
  function Run(json: Json, last: string, chunks: seq<string>): StepResult
    decreases |chunks|
  {
    if |chunks| == 0 then StepResult([], last)
    else
      var s := ChunkStep(json, last, chunks[0]);
      var t := Run(json, s.last, chunks[1..]);
      StepResult(s.writes + t.writes, t.last)
  }

  /** What the client receives: the `'end'` handler only closes the
      response, so nothing follows the chunks' own writes. */
  function Stream(json: Json, chunks: seq<string>): seq<string> {
    Run(json, "", chunks).writes
  }

  /** Every write of a response is a well-shaped event, and upstream that
      never sends a data line gets nothing written at all: no terminal
      event is made up. */
  lemma {:induction false} RunWrites(json: Json, last: string, chunks: seq<string>)
    ensures forall i :: 0 <= i < |Run(json, last, chunks).writes| ==> IsEvent(Run(json, last, chunks).writes[i])
    ensures (forall k :: 0 <= k < |chunks| ==> DataLineCount(Lines(chunks[k])) == 0) ==> Run(json, last, chunks).writes == []
    decreases |chunks|
  {
    if |chunks| > 0 {
      var s := ChunkStep(json, last, chunks[0]);
      ChunkStepSpec(json, last, chunks[0]);
      RunWrites(json, s.last, chunks[1..]);
      var t := Run(json, s.last, chunks[1..]);
      assert Run(json, last, chunks).writes == s.writes + t.writes;
      if forall k :: 0 <= k < |chunks| ==> DataLineCount(Lines(chunks[k])) == 0 {
        assert forall k :: 0 <= k < |chunks[1..]| ==> chunks[1..][k] == chunks[k + 1];
      }
    }
  }

  /** Chunks are handled in arrival order, the second batch starting from
      the `lastChunk` the first batch left behind. */
  lemma {:induction false} RunAppend(json: Json, last: string, a: seq<string>, b: seq<string>)
    ensures var ra := Run(json, last, a);
            var rb := Run(json, ra.last, b);
            Run(json, last, a + b) == StepResult(ra.writes + rb.writes, rb.last)
    decreases |a|
  {
    if |a| == 0 {
      assert a + b == b;
    } else {
      assert (a + b)[0] == a[0] && (a + b)[1..] == a[1..] + b;
      RunAppend(json, ChunkStep(json, last, a[0]).last, a[1..], b);
    }
  }

  /** A chunk holding one complete event whose payload `x` is not the
      sentinel: at most one write, the cut-down payload becomes
      `lastChunk`, and a parsable payload is written re-serialised
      whatever was cut. */
  lemma SingleEventChunk(json: Json, last: string, x: string)
    requires '\n' !in x && x != Sentinel
    ensures var t := Trim(x, last);
            ChunkStep(json, last, Event(x))
            == StepResult(if t == "" then [] else [Event(if json.parses(x) then json.canon(x) else t)], t)
  {
    EventLines(x);
    var lines := Lines(Event(x));
    var o := LineStep(json, last, "", lines[0]);
    assert IsDataLine(lines[0]) && Payload(lines[0]) == x && "" + x == x;
    assert !o.done && o.current == Trim(x, last);
    assert lines[1..] == ["", ""] && lines[1..][1..] == [""] && lines[1..][1..][1..] == [];
    assert !IsDataLine("");
    assert DataLines(lines[1..][1..][1..]) == [];
    assert DataLines(lines[1..][1..]) == [];
    assert DataLines(lines[1..]) == [];
    ProcessLinesWrites(json, last, lines[1..], o.current);
    var rest := ProcessLines(json, last, lines[1..], o.current);
    assert rest == LineOutcome([], o.current, false);
    assert ProcessLines(json, last, lines, "") == LineOutcome(o.writes + [], o.current, false);
    assert o.writes + [] == o.writes;
  }

  /** A chunk holding one event splits into its data line and two empty
      lines. */
  lemma EventLines(x: string)
    requires '\n' !in x
    ensures Lines(Event(x)) == [DataPrefix + x, "", ""]
  {
    var lines := [DataPrefix + x, "", ""];
    JoinCons(lines, '\n');
    JoinCons(lines[1..], '\n');
    assert lines[1..][1..] == [""];
    assert Join(lines, '\n') == Event(x);
    assert '\n' !in DataPrefix + x;
    SplitJoin(lines, '\n');
  }

  /** A one-event chunk whose payload equals `lastChunk` writes nothing
      and resets `lastChunk` to empty. It is an exact re-send of the
      previous chunk only when nothing was cut from that chunk. */
  lemma ExactResendSuppressed(json: Json, last: string)
    requires '\n' !in last && last != Sentinel && last != ""
    ensures ChunkStep(json, last, Event(last)) == StepResult([], "")
  {
    SingleEventChunk(json, last, last);
  }

  /** The overlap with `lastChunk` is cut only from unparsable payloads: a
      payload `y + last` is written whole when it parses and as `y`
      otherwise; `y` becomes the new `lastChunk` in both cases. */
  lemma OverlapCutOnlyWhenUnparsable(json: Json, last: string, y: string)
    requires '\n' !in y + last && y + last != Sentinel && last != "" && y != ""
    ensures ChunkStep(json, last, Event(y + last))
            == StepResult([Event(if json.parses(y + last) then json.canon(y + last) else y)], y)
  {
    SingleEventChunk(json, last, y + last);
    assert EndsWith(y + last, last);
    assert (y + last)[..|y + last| - |last|] == y;
  }

  /** The cut looks for `lastChunk` at the END of the new content, not the
      other way round: a re-sent tail strictly shorter than `lastChunk`
      (say `friend` after `Hi there, friend`) is written again. */
  lemma ShorterTailNotSuppressed(json: Json, last: string, x: string)
    requires '\n' !in x && x != Sentinel && x != "" && EndsWith(last, x) && |x| < |last|
    ensures ChunkStep(json, last, Event(x))
            == StepResult([Event(if json.parses(x) then json.canon(x) else x)], x)
  {
    SingleEventChunk(json, last, x);
  }

  /** Two growing JSON events followed by the sentinel (`Hi`, then
      `Hi there`, then `[DONE]`) come out as the two re-serialised events
      and the sentinel event. */
  lemma GrowingEventsThenDone(json: Json, x1: string, x2: string)
    requires '\n' !in x1 && '\n' !in x2
    requires x1 != "" && x2 != "" && x1 != Sentinel && x2 != Sentinel && !EndsWith(x2, x1)
    requires json.parses(x1) && json.parses(x2)
    ensures Stream(json, [Event(x1), Event(x2), DoneEvent])
            == [Event(json.canon(x1)), Event(json.canon(x2)), DoneEvent]
  {
    SingleEventChunk(json, "", x1);
    assert Trim(x1, "") == x1;
    EventThenDone(json, x1, x2);
    RunCons(json, "", Event(x1), [Event(x2), DoneEvent]);
    assert [Event(x1)] + [Event(x2), DoneEvent] == [Event(x1), Event(x2), DoneEvent];
  }

  /** The second half of `GrowingEventsThenDone`. */
  lemma EventThenDone(json: Json, x1: string, x2: string)
    requires '\n' !in x2 && x2 != "" && x2 != Sentinel && !EndsWith(x2, x1) && json.parses(x2)
    ensures Run(json, x1, [Event(x2), DoneEvent]) == StepResult([Event(json.canon(x2)), DoneEvent], x2)
  {
    SingleEventChunk(json, x1, x2);
    DoneChunk(json, x2);
    RunSingle(json, x2, DoneEvent);
    RunCons(json, x1, Event(x2), [DoneEvent]);
    assert [Event(x2)] + [DoneEvent] == [Event(x2), DoneEvent];
  }

  /** Unfolding the fold at its first chunk. */
  lemma RunCons(json: Json, last: string, chunk: string, rest: seq<string>)
    ensures var s := ChunkStep(json, last, chunk);
            var t := Run(json, s.last, rest);
            Run(json, last, [chunk] + rest) == StepResult(s.writes + t.writes, t.last)
  {
    assert ([chunk] + rest)[0] == chunk && ([chunk] + rest)[1..] == rest;
  }

  /** A response of one chunk is that chunk's step. */
  lemma RunSingle(json: Json, last: string, chunk: string)
    ensures Run(json, last, [chunk]) == ChunkStep(json, last, chunk)
  {
    var s := ChunkStep(json, last, chunk);
    assert [chunk][1..] == [];
    assert s.writes + [] == s.writes;
  }

  /** A chunk holding only the sentinel event writes the sentinel event
      and keeps `lastChunk`. */
  lemma DoneChunk(json: Json, last: string)
    ensures ChunkStep(json, last, DoneEvent) == StepResult([DoneEvent], last)
  {
    EventLines(Sentinel);
    assert IsDoneLine(Lines(DoneEvent)[0]);
  }

  /** Within one chunk the sentinel ends the callback: whatever follows the
      sentinel event in the same chunk, a second sentinel included, is
      dropped, and `lastChunk` is kept. */
  lemma SentinelEndsChunk(json: Json, last: string, rest: string)
    ensures ChunkStep(json, last, DoneEvent + rest) == StepResult([DoneEvent], last)
  {
    var done := DataPrefix + Sentinel;
    assert DoneEvent + rest == done + ['\n'] + ("\n" + rest);
    assert '\n' !in done;
    SplitAfterPiece(done, '\n', "\n" + rest);
    var b := Split("\n" + rest, '\n');
    assert Lines(DoneEvent + rest) == [] + [done] + b;
    assert IsDoneLine(done);
    ProcessLinesStopsAtDone(json, last, [], done, b, "");
    assert [] + [done] == [done];
  }

  /** The suppression of an exact re-send also empties `lastChunk`, so a
      third copy of the same one-event chunk is written again. */
  lemma ThirdCopyWritten(json: Json, x: string)
    requires '\n' !in x && x != "" && x != Sentinel
    ensures var w := Event(if json.parses(x) then json.canon(x) else x);
            Stream(json, [Event(x), Event(x), Event(x)]) == [w, w]
  {
    FreshEventChunk(json, x);
    ExactResendSuppressed(json, x);
    RunThreeCopies(json, Event(x), Event(if json.parses(x) then json.canon(x) else x), x);
  }

  /** Three copies of a chunk `c` that writes `w` from an empty `lastChunk`
      and nothing, resetting `lastChunk`, right after itself. */
  lemma RunThreeCopies(json: Json, c: string, w: string, x: string)
    requires ChunkStep(json, "", c) == StepResult([w], x)
    requires ChunkStep(json, x, c) == StepResult([], "")
    ensures Stream(json, [c, c, c]) == [w, w]
  {
    RunSingle(json, "", c);
    RunCons(json, x, c, [c]);
    assert [c] + [c] == [c, c];
    RunCons(json, "", c, [c, c]);
    assert [c] + [c, c] == [c, c, c];
  }

  /** A one-event chunk after an empty `lastChunk` writes its payload and
      makes it `lastChunk`. */
  lemma FreshEventChunk(json: Json, x: string)
    requires '\n' !in x && x != "" && x != Sentinel
    ensures ChunkStep(json, "", Event(x))
            == StepResult([Event(if json.parses(x) then json.canon(x) else x)], x)
  {
    SingleEventChunk(json, "", x);
    assert Trim(x, "") == x;
  }

  /** The sentinel is forwarded once in every chunk that carries it: two
      sentinel chunks give two sentinel events. */
  lemma RepeatedSentinelForwarded(json: Json)
    ensures Stream(json, [DoneEvent, DoneEvent]) == [DoneEvent, DoneEvent]
  {
    DoneChunk(json, "");
    RunSingle(json, "", DoneEvent);
    var chunks := [DoneEvent, DoneEvent];
    assert chunks[1..] == [DoneEvent];
  }

  /** No terminal event is made up at the end: a single JSON event with no
      sentinel after it is all the client receives. */
  lemma NoSentinelSynthesised(json: Json, x: string)
    requires '\n' !in x && x != "" && x != Sentinel && json.parses(x)
    ensures Stream(json, [Event(x)]) == [Event(json.canon(x))]
  {
    SingleEventChunk(json, "", x);
    assert Trim(x, "") == x;
    RunSingle(json, "", Event(x));
  }
}

=== FILE: strings.dfy ===
/**
 The handful of JavaScript string operations the proxy relies on
 (`startsWith`, `endsWith`, `includes`, `split` on one character,
 `join`), written over `string = seq<char>`, together with the facts that
 make `Split` and `Join` inverses of each other.
 */
module Strings {
  /** `s.startsWith(p)` */
  predicate StartsWith(s: string, p: string) {
    |p| <= |s| && s[..|p|] == p
  }

  /** `s.endsWith(p)` */
  predicate EndsWith(s: string, p: string) {
    |p| <= |s| && s[|s| - |p|..] == p
  }

  /** `s.includes(t)`: `t` occurs somewhere in `s`. */
  predicate Contains(s: string, t: string)
    decreases |s|
  {
    StartsWith(s, t) || (|s| > 0 && Contains(s[1..], t))
  }

  /** Every occurrence of `c` deleted from `s`, the rest kept in order. */
  function Remove(s: string, c: char): (r: string)
    ensures c !in r
    ensures |r| <= |s|
    decreases |s|
  {
    if |s| == 0 then ""
    else if s[0] == c then Remove(s[1..], c)
    else [s[0]] + Remove(s[1..], c)
  }

  /** The strings of `parts` laid end to end. */
  function Concat(parts: seq<string>): string
    decreases |parts|
  {
    if |parts| == 0 then "" else parts[0] + Concat(parts[1..])
  }

  /** `parts.join(c)`: neighbours separated by exactly one `c`. */
  function Join(parts: seq<string>, c: char): string
    decreases |parts|
  {
    if |parts| == 0 then ""
    else if |parts| == 1 then parts[0]
    else parts[0] + [c] + Join(parts[1..], c)
  }

  /** `parts.filter(Boolean)`: the non-empty strings, in order. No empty
      string survives, every non-empty string is kept as often as it
      occurs, and the concatenation is unchanged; `NonEmptyAppend` gives
      the order. */
  function NonEmpty(parts: seq<string>): (r: seq<string>)
    ensures "" !in r
    ensures forall i :: 0 <= i < |r| ==> r[i] in parts
    ensures forall s :: s != "" ==> multiset(r)[s] == multiset(parts)[s]
    ensures Concat(r) == Concat(parts)
    decreases |parts|
  {
    if |parts| == 0 then []
    else
      var rest := NonEmpty(parts[1..]);
      assert parts == [parts[0]] + parts[1..];
      if parts[0] == "" then rest
      else [parts[0]] + rest
  }

  /** Filtering is done piece by piece, so the kept strings stay in their
      original order: filtering `a + b` is filtering `a`, then `b`. */
  lemma {:induction false} NonEmptyAppend(a: seq<string>, b: seq<string>)
    ensures NonEmpty(a + b) == NonEmpty(a) + NonEmpty(b)
    decreases |a|
  {
    if |a| == 0 {
      assert a + b == b;
    } else {
      assert (a + b)[0] == a[0] && (a + b)[1..] == a[1..] + b;
      NonEmptyAppend(a[1..], b);
    }
  }

  /** `s.split(c)` for a one-character separator: the pieces between
      consecutive occurrences of `c`, empty pieces included. There is
      always at least one piece and none contains `c`. */
  function Split(s: string, c: char): (parts: seq<string>)
    ensures |parts| >= 1
    ensures forall i :: 0 <= i < |parts| ==> c !in parts[i]
    decreases |s|
  {
    if |s| == 0 then [""]
    else
      var rest := Split(s[1..], c);
      if s[0] == c then [""] + rest
      else [[s[0]] + rest[0]] + rest[1..]
  }

  /** Joining the pieces of a split back with the separator gives the
      original string. */
  lemma {:induction false} JoinSplit(s: string, c: char)
    ensures Join(Split(s, c), c) == s
    decreases |s|
  {
    if |s| > 0 {
      JoinSplit(s[1..], c);
      var rest := Split(s[1..], c);
      JoinCons(rest, c);
      if s[0] == c {
        assert s == [c] + s[1..];
      } else {
        var parts := [[s[0]] + rest[0]] + rest[1..];
        JoinCons(parts, c);
        assert parts[1..] == rest[1..];
        assert s == [s[0]] + s[1..];
      }
    }
  }

  /** Unfolding `Join` at the front of a list with at least two parts. */
  lemma JoinCons(parts: seq<string>, c: char)
    requires |parts| >= 1
    ensures |parts| == 1 ==> Join(parts, c) == parts[0]
    ensures |parts| > 1 ==> Join(parts, c) == parts[0] + [c] + Join(parts[1..], c)
  {
  }

  /** A string without the separator splits into itself alone. */
  lemma {:induction false} SplitWithoutSeparator(s: string, c: char)
    requires c !in s
    ensures Split(s, c) == [s]
    decreases |s|
  {
    if |s| > 0 {
      SplitWithoutSeparator(s[1..], c);
      assert [s[0]] + s[1..] == s;
    }
  }

  /** A separator-free head followed by the separator is split off as the
      first piece. */
  lemma {:induction false} SplitAfterPiece(p: string, c: char, rest: string)
    requires c !in p
    ensures Split(p + [c] + rest, c) == [p] + Split(rest, c)
    decreases |p|
  {
    var s := p + [c] + rest;
    if |p| == 0 {
      assert s == [c] + rest;
      assert s[1..] == rest;
    } else {
      assert s[1..] == p[1..] + [c] + rest;
      SplitAfterPiece(p[1..], c, rest);
      assert [p[0]] + p[1..] == p;
    }
  }

  /** Split undoes Join when no part contains the separator. */
  lemma {:induction false} SplitJoin(parts: seq<string>, c: char)
    requires |parts| >= 1
    requires forall i :: 0 <= i < |parts| ==> c !in parts[i]
    ensures Split(Join(parts, c), c) == parts
    decreases |parts|
  {
    if |parts| == 1 {
      SplitWithoutSeparator(parts[0], c);
    } else {
      SplitJoin(parts[1..], c);
      SplitAfterPiece(parts[0], c, Join(parts[1..], c));
      assert [parts[0]] + parts[1..] == parts;
    }
  }

  /** Concatenating the pieces of a split is deleting the separator. */
  lemma {:induction false} ConcatSplit(s: string, c: char)
    ensures Concat(Split(s, c)) == Remove(s, c)
    decreases |s|
  {
    if |s| > 0 {
      ConcatSplit(s[1..], c);
      var rest := Split(s[1..], c);
      if s[0] != c {
        var parts := [[s[0]] + rest[0]] + rest[1..];
        assert parts[1..] == rest[1..];
        assert Concat(rest) == rest[0] + Concat(rest[1..]);
      }
    }
  }
}
